=== FILE: README.md ===
# FileUpload selection state machine

A Dafny model of the single-file upload widget in
`src/components/fileupload.tsx`: the root `FileUpload` (which owns the
selected `file`, its `preview` data URL, the `isDragging` flag and a hidden
`<input type="file">`), the `FileUploadDropzone` handlers, and what
`FileUploadContent`, `FileUploadPreview` and `FileUploadClear` render.

The component's state is an immutable record (`FileUpload.State`): the
selection, the preview, the drag flag, the hidden input's remembered value,
and the image reads started by `handleFile` that have not finished yet. A
`File` is a `FileRef` carrying an identity besides its name and MIME type,
so two different files with the same name and type stay distinct.
Every handler is a pure transition returning the new state and its effects
(`Notify(f)` for the host's `onChange(f)`, `OpenPicker` for
`inputRef.current.click()`); `Step` dispatches named events to the handlers
and `Run` folds a sequence of events through any step function. The input's
`change` event carries the browser's own update of the input's value, made
before the handler runs. The asynchronous `FileReader` is split into a
start (inside `handleFile`) and separate completion events (`ReadLoad`,
`ReadError`), so reads can finish in any order and after any other event.
The browser's data-URL encoding is a parameter
(`Encoder = FileRef -> string`).

Modules:
- `Options`, `Files`: `Option`, the `File` reference, the `startsWith("image/")` test, `files?.[0]`, and the input's value for a choice.
- `FileUpload`: state, events, effects, the handlers, `Step` and `Run`, as the code is written.
- `Traces`: properties of the code as written — what each event changes and emits, invariants of every reachable state, and the traces that expose the missing staleness check.
- `Render`: what the three display components show for a state.
- `Picker`: the browser side of the file input (it reports a choice only when it differs from the remembered value), which is what `clear`'s blanking of the input is for, and `CorrectedDrop`, a drop that blanks the input too.
- `Superseding`: the same machine with the two fixes that tie the preview to the current selection (every `handleFile` drops the preview; a finished read is applied only if its `File` object is still selected), with the property the code as written lacks proved for it.

The code as written does not guarantee that the preview belongs to the
selected file; the model shows this with concrete traces
(`Traces.StaleReadAfterClear`, `Traces.StaleReadAfterReselect`,
`Traces.ReadsFinishingOutOfOrder`, `Traces.OldPreviewOutlivesFailedRead`).
The `FileUpload` module follows the code. The two preview fixes live in
`Superseding`; the drop that also blanks the input lives in `Picker`.

## Model

| member | source | states |
|---|---|---|
| `FileUpload.HandleFile` | src/components/fileupload.tsx:47-57 | `file` becomes exactly the argument and the host is told once with that argument (also for null); an image selection leaves the preview alone and adds a read of that file; anything else, null included, sets the preview to null and starts no read; drag flag and input value are kept |
| `FileUpload.Clear` | src/components/fileupload.tsx:59-62 | file and preview become null, the input's value becomes "", the host receives `onChange(null)`; drag flag and in-flight reads are untouched |
| `FileUpload.SelectFirst` | src/components/fileupload.tsx:75-78 | the input's change handler: an empty file list changes nothing and emits nothing; otherwise it is exactly `handleFile(files[0])` |
| `FileUpload.OnDrop` | src/components/fileupload.tsx:96-101 | the drag flag is false afterwards whatever was dropped; an empty payload changes nothing else; otherwise `files[0]` is selected and reported |
| `FileUpload.OnDragOver` | src/components/fileupload.tsx:107 | the drag flag becomes true; nothing else changes and nothing is emitted |
| `FileUpload.OnDragLeave` | src/components/fileupload.tsx:108 | the drag flag becomes false; nothing else changes and nothing is emitted |
| `FileUpload.OpenFilePicker` | src/components/fileupload.tsx:64 | the state is untouched and the only effect is opening the picker |
| `FileUpload.OnReadLoad` | src/components/fileupload.tsx:50-53 | a finished read of `f` sets the preview to `f`'s data URL whatever is selected now, and only that read leaves the in-flight set; file, drag flag and input value are kept; no effect |
| `FileUpload.OnReadError` | src/components/fileupload.tsx:50-53 | a read ending without `onload` only leaves the in-flight set; the preview is not touched (there is no error handler); a read that was never started changes nothing |
| `FileUpload.RemoveOne` | src/components/fileupload.tsx:51-53 | a finished read removes exactly one pending read of its file (multiset difference) and nothing when there is none |
| `FileUpload.Step` | src/components/fileupload.tsx:71-108 | the event wiring: only drag-over sets the drag flag, only drag-leave and drop clear it; only the clear paths blank the input's value and only the input's change event (through the browser) sets it to the new choice; every other event keeps both |
| `FileUpload.Run` | src/components/fileupload.tsx:41-108 | a one-event trace does exactly what the handler for that event does: the component has no other place where state changes |
| `FileUpload.RunSnoc` | src/components/fileupload.tsx:41-108 | handlers run one after the other: a non-empty trace ends in the state its last event reaches from the state of the prefix, with the prefix's effects followed by the last event's |
| `Files.FirstFile` | src/components/fileupload.tsx:76-77 | `files?.[0]` with the `if (f)` test: nothing exactly when the list is empty, else its first element |
| `Files.ImageDecidedByPrefix` | src/components/fileupload.tsx:50 | the preview decision depends only on the MIME type's first six characters being "image/" (case-sensitive); any "image/..." type qualifies |
| `Files.PickedValue` | src/components/fileupload.tsx:71-74 | the input's remembered value for a chosen file is non-empty and is "C:\fakepath\" followed by the file's name |
| `Files.InputValueFor` | src/components/fileupload.tsx:71-76 | the input's value is "" exactly when it holds no file, else the first file's picked value |
| `Traces.StepEffects` | src/components/fileupload.tsx:47-108 | per event: exactly one `onChange` with the `handleFile` argument when the handler calls it, `openFilePicker` only for a click reaching the dropzone (never for the clear controls), nothing otherwise; `file` changes only through `handleFile` |
| `Traces.HostSeesCurrentFile` | src/components/fileupload.tsx:47-49 | after any sequence of events, the last value passed to `onChange` is the component's current `file` |
| `Traces.StepKeepsValid` | src/components/fileupload.tsx:50-56 | each event keeps "only images are being read and a preview is some image's data URL" |
| `Traces.RunKeepsValid` | src/components/fileupload.tsx:50-56 | no sequence of events ever reads a non-image or shows a non-image's data as the preview |
| `Traces.InitialValid` | src/components/fileupload.tsx:42-45 | the mount state satisfies that invariant |
| `Traces.DragGesturesKeepSelection` | src/components/fileupload.tsx:107-108 | any run of drag-over/drag-leave events emits nothing, keeps file, preview, input value and reads, and leaves the flag as set by the last gesture |
| `Traces.ClearIdempotent` | src/components/fileupload.tsx:59-62 | clearing twice reaches the state of clearing once, with two `onChange(null)` |
| `Traces.DropIsLeaveThenPick` | src/components/fileupload.tsx:96-101 | a drop equals a drag-leave followed by the input's change event on the same payload, except that the input's value is left as it was |
| `Traces.ImageReadShowsImage` | src/components/fileupload.tsx:50-53 | selecting an image and letting its read finish shows that image's data URL |
| `Traces.StaleReadAfterClear` | src/components/fileupload.tsx:50-62 | select an image, clear, then its read finishes: file is null and the preview is the image's data URL |
| `Traces.StaleReadAfterReselect` | src/components/fileupload.tsx:47-56 | select an image, then a different file, then the image's read finishes: that file is selected with the image's data URL as preview |
| `Traces.ReadsFinishingOutOfOrder` | src/components/fileupload.tsx:50-53 | two images selected in turn whose reads finish in reverse order: the second is selected, the first one's data URL is the preview |
| `Traces.OldPreviewOutlivesFailedRead` | src/components/fileupload.tsx:50-56 | after an image is previewed, selecting a second image whose read fails keeps the first image's preview for the second file |
| `Render.PreviewBody` | src/components/fileupload.tsx:128-138 | the preview renders exactly when a file is selected, which is exactly when the standalone clear button renders and the placeholder does not; it shows the image iff `preview` is truthy (non-null and non-empty), with that URL, else the file's name |
| `Render.ClearRestoresPlaceholder` | src/components/fileupload.tsx:139-156 | either clear control (and `clear` itself) brings back the placeholder, removes preview and clear controls, and never opens the picker |
| `Render.NonImageShowsName` | src/components/fileupload.tsx:134-137 | selecting a non-image renders its name |
| `Render.LoadedImageShown` | src/components/fileupload.tsx:134-135 | a finished image read renders that image (its name if the data URL is empty) |
| `Render.StaleReadAfterClearHidden` | src/components/fileupload.tsx:121-130 | the stale preview after clear stays invisible: the placeholder is shown |
| `Render.StaleImageShownForNonImage` | src/components/fileupload.tsx:128-137 | the missing staleness check is visible: a non-image is rendered with an earlier image's picture |
| `Picker.ChooseInDialog` | src/components/fileupload.tsx:75-78 | choosing the remembered file again does nothing; any other choice updates the value, selects the file and reports it |
| `Picker.RepickAfterClearNotifies` | src/components/fileupload.tsx:59-62 | after `clear`, choosing the same file again reaches the host |
| `Picker.RepickWithoutClearIsSilent` | src/components/fileupload.tsx:61 | without `clear`, choosing the same file again is not reported |
| `Picker.CorrectedDrop` | src/components/fileupload.tsx:96-101 | the drop with the value blanking of line 61 added: the same selection, flag and effects as the drop as written, and a blank value whenever the payload holds a file |
| `Picker.RepickAfterCorrectedDropNotifies` | src/components/fileupload.tsx:59-62 | with the corrected drop, the file chosen earlier in the dialog can be chosen again, and the host hears about it |
| `Picker.RepickAfterDropIsSilent` | src/components/fileupload.tsx:96-101 | a drop does not blank the input: the file chosen earlier in the dialog cannot be chosen again while the dropped file stays selected |
| `Superseding.HandleFile` | src/components/fileupload.tsx:47-57 | corrected `handleFile`: as written, but the preview is null after every selection |
| `Superseding.OnReadLoad` | src/components/fileupload.tsx:52 | corrected `onload`: the data URL is applied only if the `File` object it read is still selected; everything else is as written |
| `Superseding.Step` | src/components/fileupload.tsx:47-108 | corrected wiring: every event that calls `handleFile` leaves no preview and selects the handed file, `Select` is the corrected `handleFile`, a read completion goes through the guarded `onload`, and events that neither call it nor finish a read behave as written |
| `Superseding.StepKeepsOwned` | src/components/fileupload.tsx:47-62 | each event of the corrected machine keeps "the preview is the selected `File` object's data URL" |
| `Superseding.RunKeepsPreviewOwned` | src/components/fileupload.tsx:47-62 | in the corrected machine, after any events in any completion order, a preview is always the data URL of the selected `File` object, which is an image |
| `Superseding.InitialOwned` | src/components/fileupload.tsx:42-45 | the mount state satisfies that invariant |
| `Superseding.RenderedImageIsSelection` | src/components/fileupload.tsx:128-137 | in the corrected machine a rendered image is always the selected image's own data URL |
| `Superseding.StepOnlyPreviewDiffers` | src/components/fileupload.tsx:47-62 | per event the fixes change nothing but the preview: same effects, same file, flag, input value and reads |
| `Superseding.OnlyPreviewDiffers` | src/components/fileupload.tsx:47-62 | the same for whole event sequences |
| `Superseding.StaleReadDiscarded` | src/components/fileupload.tsx:50-62 | the select/clear/late-read trace ends with no preview in the corrected machine |
| `Superseding.SameNamedStaleReadDiscarded` | src/components/fileupload.tsx:47-53 | two different files with the same name and type: the first one's late read becomes the preview as written, and is discarded by the corrected guard |
| `Superseding.CurrentReadApplied` | src/components/fileupload.tsx:50-53 | the guard keeps the legitimate result: a read that finishes while its file is selected is shown |

## Left out

- Lightbox, Escape handling and PDF object-URL previews: this component has none.
- The React context and `useFileUpload`'s provider check (lines 25-31): wiring with no state logic; the context's functions appear as events (`Select`, `ClearCall`) instead.
- `setIsDragging` exposed through the context: only the dropzone calls it, so it is modelled through `DragOver`, `DragLeave` and `Drop`.
- JSX markup, `cn` class names and the drag highlight styling: presentational.
- The data-URL encoding of `FileReader.readAsDataURL`: a browser function, given as the `Encoder` parameter.
- `preventDefault` and event bubbling: reduced to which effects an event has; a click inside the dropzone that is not on a clear control is a `DropzoneClick`.
- `onChange` being optional: `Notify` stands for the call made when a host supplied one.
- `inputRef.current` being null in `clear`: the input is always rendered by `FileUpload`, so the value is always blanked.
- The `accept` attribute: passed to the browser, never enforced by the component.
- Reads finishing after the component unmounts: React drops those updates; unmounting is not modelled.
- A `ReadLoad` or `ReadError` for a read that was never started is a no-op: a reader only fires for its own read.
- Picker.ChooseInDialog: compares the remembered values ("C:\fakepath\" plus the name), not the browser's full paths, so two different files with the same name count as the same choice there; a cancelled dialog is no event.
- `src/lib/config.ts` (site metadata) and `src/app/page.tsx` (a demo page composing the component): no logic.

## Findings

| source | as written | input that shows it | evidently intended | confidence | as-written member | corrected member |
|---|---|---|---|---|---|---|
| src/components/fileupload.tsx:52 | `onload` sets the preview with no check that its file is still selected | select an image, then another file, then the image's read finishes: the other file is shown with the image's picture (also: select image, clear, late read; or two different files with the same name) | apply a read only while its `File` object is the selection | medium; not executed | `Traces.StaleReadAfterReselect` | `Superseding.RunKeepsPreviewOwned` |
| src/components/fileupload.tsx:50-53 | selecting an image keeps the previous preview until the new read loads | preview image A, select image B whose read fails: B stays selected with A's picture | drop the preview on every new selection | low; not executed | `Traces.OldPreviewOutlivesFailedRead` | `Superseding.HandleFile` |
| src/components/fileupload.tsx:96-101 | a drop selects the dropped file but leaves the input's value, which still names the file last chosen in the dialog | choose `f` in the dialog, drop `g`, choose `f` in the dialog again: no `change` fires, `g` stays selected and the host hears nothing | blank the value whenever a drop replaces the selection, as `clear` does at line 61 | low; not executed | `Picker.RepickAfterDropIsSilent` | `Picker.RepickAfterCorrectedDropNotifies` |

=== FILE: files.dfy ===
/** The browser `File` objects the component handles, reduced to what its
    logic inspects: the object's identity, its name (shown when there is no
    preview, and what the file input remembers) and its MIME type (which
    decides whether a preview is read). */
module Files {
  import opened Options

  /** A `File` object. `id` stands for the object's identity: two files
      picked from different folders may share name and type and still be
      different objects with different contents. `File.type` is spelt
      `mimeType` because `type` is a Dafny keyword. */
  datatype FileRef = FileRef(id: nat, name: string, mimeType: string)

  /** The prefix `handleFile` tests with `String.prototype.startsWith`. */
  const ImagePrefix: string := "image/"

  /** `s.startsWith(prefix)`: case-sensitive, character by character. */
  predicate StartsWith(s: string, prefix: string) {
    |prefix| <= |s| && s[..|prefix|] == prefix
  }

  /** A file whose MIME type starts with "image/" gets an asynchronous data-URL read. */
  predicate IsImage(f: FileRef) {
    StartsWith(f.mimeType, ImagePrefix)
  }

  /** `f?.type.startsWith("image/")` on a `File | null`: null is never an image. */
  predicate SelectsImage(choice: Option<FileRef>) {
    choice.Some? && IsImage(choice.value)
  }

  /** `files?.[0]` followed by the truthiness test `if (f)`: the first file of
      the payload, or nothing when the payload is empty. */
  function FirstFile(files: seq<FileRef>): (r: Option<FileRef>)
    ensures r.None? <==> files == []
    ensures r.Some? ==> r.value == files[0]
  {
    if files == [] then None else Some(files[0])
  }

  /** Only the first six characters of the MIME type decide the preview
      mode: whatever follows "image/" is irrelevant, and a MIME type with
      any other start (including upper-case "IMAGE/") is not an image. */
  lemma ImageDecidedByPrefix(f: FileRef)
    ensures IsImage(f) <==> |f.mimeType| >= 6 && f.mimeType[..6] == "image/"
    ensures forall rest: string :: IsImage(FileRef(f.id, f.name, "image/" + rest))
  {
    forall rest: string
      ensures IsImage(FileRef(f.id, f.name, "image/" + rest))
    {
      assert ("image/" + rest)[..6] == "image/";
    }
  }

  /** The HTML standard's value of a file input holding files: the first
      file's name behind the fixed fake directory "C:\fakepath\". */
  const FakePath: string := "C:\\fakepath\\"

  function PickedValue(f: FileRef): (v: string)
    ensures v != ""
    ensures StartsWith(v, FakePath) && v[|FakePath|..] == f.name
  {
    FakePath + f.name
  }

  /** The input's value once the browser holds `files`: "" for none. */
  function InputValueFor(files: seq<FileRef>): (v: string)
    ensures v == "" <==> files == []
    ensures files != [] ==> v == PickedValue(files[0])
  {
    match FirstFile(files)
    case None => ""
    case Some(f) => PickedValue(f)
  }
}

=== FILE: fileupload.dfy ===
/** The selection state machine of the `FileUpload` component family: the
    React state of the root (`file`, `preview`, `isDragging`), the hidden
    file input's remembered value, and the image reads still in flight,
    driven by the handlers of the root, the dropzone and the clear
    controls. Every handler is a pure transition returning the new state
    and the effects it performs on the outside world. */
module FileUpload {
  import opened Options
  import opened Files

  /** The browser's `FileReader.readAsDataURL` result for a file. The
      encoding is not part of the component, so it is a parameter. */
  type Encoder = FileRef -> string

  datatype State = State(
    file: Option<FileRef>,     // `useState<File | null>(null)`
    preview: Option<string>,   // `useState<string | null>(null)`
    dragging: bool,            // `useState(false)`
    inputValue: string,        // the hidden `<input type="file">`'s value
    pending: seq<FileRef>      // image reads started and not yet finished, oldest first
  )

  /** The state on mount. */
  const Initial: State := State(None, None, false, "", [])

  /** What a handler does outside the component's own state. */
  datatype Effect =
    | Notify(selected: Option<FileRef>)  // the host's `onChange?.(f)`
    | OpenPicker                         // `inputRef.current?.click()`

  /** Everything that can drive the component. */
  datatype Event =
    | Select(choice: Option<FileRef>)  // `handleFile` called through the context
    | ClearCall                        // `clear` called through the context
    | PickerChange(files: seq<FileRef>)  // the input now holds `files` and fires `change`
    | Drop(files: seq<FileRef>)        // `drop` on the dropzone
    | DragOver                         // `dragover` on the dropzone
    | DragLeave                        // `dragleave` on the dropzone
    | DropzoneClick                    // a click that reaches the dropzone
    | ClearControlClick                // a click on the preview's or the standalone clear button
    | ReadLoad(target: FileRef)        // `reader.onload` of a read started for `target`
    | ReadError(target: FileRef)       // a read of `target` that ends without `onload`

  datatype Transition = Transition(state: State, effects: seq<Effect>)

  /** The events whose handler ends in a `handleFile` call. */
  predicate CallsHandleFile(e: Event) {
    match e
    case Select(_) => true
    case ClearCall => true
    case ClearControlClick => true
    case PickerChange(files) => files != []
    case Drop(files) => files != []
    case _ => false
  }

  /** The argument of that `handleFile` call. */
  function HandedFile(e: Event): Option<FileRef>
    requires CallsHandleFile(e)
  {
    match e
    case Select(choice) => choice
    case PickerChange(files) => Some(files[0])
    case Drop(files) => Some(files[0])
    case _ => None
  }

  /** Drops the oldest pending read of `f`, if there is one. */
  function RemoveOne(inFlight: seq<FileRef>, f: FileRef): (r: seq<FileRef>)
    ensures f in inFlight ==> multiset(r) == multiset(inFlight) - multiset{f}
    ensures f !in inFlight ==> r == inFlight
  {
    if inFlight == [] then []
    else if inFlight[0] == f then
      assert inFlight == [inFlight[0]] + inFlight[1..];
      inFlight[1..]
    else
      assert inFlight == [inFlight[0]] + inFlight[1..];
      [inFlight[0]] + RemoveOne(inFlight[1..], f)
  }

  /** `handleFile(f)`: select `f` (or nothing), tell the host, and either
      start a data-URL read (images) or drop the preview (everything else). */
  function HandleFile(s: State, choice: Option<FileRef>): (r: Transition)
    ensures r.state.file == choice
    ensures r.effects == [Notify(choice)]
    ensures r.state.dragging == s.dragging && r.state.inputValue == s.inputValue
    ensures SelectsImage(choice) ==>
              r.state.preview == s.preview && r.state.pending == s.pending + [choice.value]
    ensures !SelectsImage(choice) ==>
              r.state.preview == None && r.state.pending == s.pending
  {
    var selected := s.(file := choice);
    if SelectsImage(choice) then
      Transition(selected.(pending := s.pending + [choice.value]), [Notify(choice)])
    else
      Transition(selected.(preview := None), [Notify(choice)])
  }

  /** `clear()`: `handleFile(null)`, then blank the input so that picking the
      same file again is a change the browser reports. */
  function Clear(s: State): (r: Transition)
    ensures r.state.file == None && r.state.preview == None && r.state.inputValue == ""
    ensures r.effects == [Notify(None)]
    ensures r.state.dragging == s.dragging && r.state.pending == s.pending
  {
    var t := HandleFile(s, None);
    Transition(t.state.(inputValue := ""), t.effects)
  }

  /** `const f = files[0]; if (f) handleFile(f)`: the whole of the input's
      `onChange` handler, and the selection half of the dropzone's `onDrop`. */
  function SelectFirst(s: State, files: seq<FileRef>): (r: Transition)
    ensures files == [] ==> r == Transition(s, [])
    ensures files != [] ==> r == HandleFile(s, Some(files[0]))
  {
    match FirstFile(files)
    case None => Transition(s, [])
    case Some(f) => HandleFile(s, Some(f))
  }

  /** The dropzone's `onDrop`: the drag highlight ends whatever was dropped. */
  function OnDrop(s: State, files: seq<FileRef>): (r: Transition)
    ensures !r.state.dragging
    ensures files == [] ==> r == Transition(s.(dragging := false), [])
    ensures files != [] ==>
              r.state.file == Some(files[0]) && r.effects == [Notify(Some(files[0]))]
  {
    SelectFirst(s.(dragging := false), files)
  }

  /** The dropzone's `onDragOver`: highlight on, nothing else. */
  function OnDragOver(s: State): (r: Transition)
    ensures r.state == s.(dragging := true) && r.effects == []
  {
    Transition(s.(dragging := true), [])
  }

  /** The dropzone's `onDragLeave`: highlight off, nothing else. */
  function OnDragLeave(s: State): (r: Transition)
    ensures r.state == s.(dragging := false) && r.effects == []
  {
    Transition(s.(dragging := false), [])
  }

  /** `openFilePicker`, the dropzone's `onClick`: the state is untouched and
      the picker is asked to open. */
  function OpenFilePicker(s: State): (r: Transition)
    ensures r.state == s && r.effects == [OpenPicker]
  {
    Transition(s, [OpenPicker])
  }

  /** `reader.onload = (e) => setPreview(e.target?.result)`: the read's data
      URL becomes the preview, whatever file is selected by now. */
  function OnReadLoad(encode: Encoder, s: State, f: FileRef): (r: Transition)
    ensures r.effects == []
    ensures f in s.pending ==>
              && r.state.preview == Some(encode(f))
              && multiset(r.state.pending) == multiset(s.pending) - multiset{f}
              && r.state.file == s.file
              && r.state.dragging == s.dragging
              && r.state.inputValue == s.inputValue
    ensures f !in s.pending ==> r.state == s
  {
    if f in s.pending then
      Transition(s.(preview := Some(encode(f)), pending := RemoveOne(s.pending, f)), [])
    else
      Transition(s, [])
  }

  /** A read that fails or is aborted: there is no `onerror` handler, so only
      the read itself disappears. */
  function OnReadError(s: State, f: FileRef): (r: Transition)
    ensures r.effects == []
    ensures r.state.(pending := s.pending) == s
    ensures f in s.pending ==> multiset(r.state.pending) == multiset(s.pending) - multiset{f}
    ensures f !in s.pending ==> r.state == s
  {
    Transition(s.(pending := RemoveOne(s.pending, f)), [])
  }

  /** One event, as the handler wired to it processes it. Before the input's
      `change` fires, the browser has already stored the new choice as the
      input's value. The clear controls call `e.stopPropagation()` before
      `clear()`, so their click never reaches the dropzone's
      `openFilePicker`. Only the dropzone's drag handlers and `onDrop` touch
      the drag flag, and only the clear paths and the browser's own update
      touch the input's value. */
  function Step(encode: Encoder, s: State, e: Event): (r: Transition)
    ensures r.state.dragging ==
              if e.DragOver? then true
              else if e.DragLeave? || e.Drop? then false
              else s.dragging
    ensures r.state.inputValue ==
              if e.ClearCall? || e.ClearControlClick? then ""
              else if e.PickerChange? then InputValueFor(e.files)
              else s.inputValue
  {
    match e
    case Select(choice) => HandleFile(s, choice)
    case ClearCall => Clear(s)
    case PickerChange(files) => SelectFirst(s.(inputValue := InputValueFor(files)), files)
    case Drop(files) => OnDrop(s, files)
    case DragOver => OnDragOver(s)
    case DragLeave => OnDragLeave(s)
    case DropzoneClick => OpenFilePicker(s)
    case ClearControlClick => Clear(s)
    case ReadLoad(f) => OnReadLoad(encode, s, f)
    case ReadError(f) => OnReadError(s, f)
  }

  /** A way of processing one event: the component as written, or a variant. */
  type StepFunction = (State, Event) -> Transition

  /** The component as written, for a given data-URL encoding. */
  function AsWritten(encode: Encoder): (step: StepFunction)
    ensures forall s, e :: step(s, e) == Step(encode, s, e)
  {
    (s, e) => Step(encode, s, e)
  }

  /** A sequence of events, processed one after the other from the first;
      the effects are collected in the order they happen. A single event is
      exactly its own step. */
  function Run(step: StepFunction, s: State, trace: seq<Event>): (r: Transition)
    ensures |trace| == 1 ==> r == step(s, trace[0])
    decreases |trace|
  {
    if trace == [] then Transition(s, [])
    else
      var first := step(s, trace[0]);
      var rest := Run(step, first.state, trace[1..]);
      assert |trace| == 1 ==> first.effects + rest.effects == first.effects;
      Transition(rest.state, first.effects + rest.effects)
  }

  /** Running a non-empty trace is running its prefix and then its last
      event: the fold from the front is the same as the fold from the back. */
  lemma {:induction false} RunSnoc(step: StepFunction, s: State, trace: seq<Event>)
    requires trace != []
    ensures Run(step, s, trace) ==
              var before := Run(step, s, trace[..|trace| - 1]);
              var last := step(before.state, trace[|trace| - 1]);
              Transition(last.state, before.effects + last.effects)
    decreases |trace|
  {
    var first := step(s, trace[0]);
    if |trace| == 1 {
      assert trace[..0] == [];
    } else {
      var init := trace[..|trace| - 1];
      assert init[1..] == trace[1..][..|trace[1..]| - 1];
      assert trace[1..][|trace[1..]| - 1] == trace[|trace| - 1];
      RunSnoc(step, first.state, trace[1..]);
      var middle := Run(step, first.state, init[1..]);
      var last := step(middle.state, trace[|trace| - 1]);
      assert first.effects + (middle.effects + last.effects)
          == (first.effects + middle.effects) + last.effects;
    }
  }

  /** Short traces spelt out: the state after two, three or four events. */
  lemma RunTwo(step: StepFunction, s: State, e1: Event, e2: Event)
    ensures Run(step, s, [e1, e2]) ==
              var t1 := step(s, e1);
              var t2 := step(t1.state, e2);
              Transition(t2.state, t1.effects + t2.effects)
  {
    assert [e1, e2][1..] == [e2];
    assert [e2][1..] == [];
  }

  lemma RunThree(step: StepFunction, s: State, e1: Event, e2: Event, e3: Event)
    ensures Run(step, s, [e1, e2, e3]).state == step(step(step(s, e1).state, e2).state, e3).state
  {
    assert [e1, e2, e3][1..] == [e2, e3];
    RunTwo(step, step(s, e1).state, e2, e3);
  }

  lemma RunFour(step: StepFunction, s: State, e1: Event, e2: Event, e3: Event, e4: Event)
    ensures Run(step, s, [e1, e2, e3, e4]).state
         == step(step(step(step(s, e1).state, e2).state, e3).state, e4).state
  {
    assert [e1, e2, e3, e4][1..] == [e2, e3, e4];
    RunThree(step, step(s, e1).state, e2, e3, e4);
  }
}

=== FILE: options.dfy ===
/** The optional value used for every nullable reference of the component
    (`File | null`, `string | null`). */
module Options {

  datatype Option<+T> = None | Some(value: T)
}

=== FILE: picker.dfy ===
/** The browser side of the hidden `<input type="file">`: the dialog the
    dropzone opens remembers the last choice as the input's value and fires
    `change` only when a choice differs from it. This is why `clear` blanks
    the value. `CorrectedDrop` is a drop that blanks it as well, so that a
    file dropped over an earlier dialog choice does not hide that choice. */
module Picker {
  import opened Options
  import opened Files
  import opened FileUpload

  /** The user chooses `f` in the dialog. An unchanged value fires no event;
      otherwise the browser stores the choice and the input's change handler
      runs. */
  function ChooseInDialog(encode: Encoder, s: State, f: FileRef): (r: Transition)
    ensures s.inputValue == PickedValue(f) ==> r == Transition(s, [])
    ensures s.inputValue != PickedValue(f) ==>
              && r.state.inputValue == PickedValue(f)
              && r.state.file == Some(f)
              && r.effects == [Notify(Some(f))]
  {
    if s.inputValue == PickedValue(f) then Transition(s, [])
    else Step(encode, s, PickerChange([f]))
  }

  /** After a clear, choosing the same file again is reported to the host. */
  lemma RepickAfterClearNotifies(encode: Encoder, s: State, f: FileRef)
    ensures var cleared := Step(encode, ChooseInDialog(encode, s, f).state, ClearCall).state;
            ChooseInDialog(encode, cleared, f).effects == [Notify(Some(f))]
  {
  }

  /** Without a clear in between, choosing the same file again does nothing. */
  lemma RepickWithoutClearIsSilent(encode: Encoder, s: State, f: FileRef)
    ensures var once := ChooseInDialog(encode, s, f).state;
            ChooseInDialog(encode, once, f) == Transition(once, [])
  {
  }

  /** Of the component's handlers, only `clear` blanks the value: a file chosen in the dialog, then
      replaced by a drop, cannot be chosen in the dialog again — the drop
      stays selected and the host hears nothing. */
  lemma RepickAfterDropIsSilent(encode: Encoder, s: State, f: FileRef, g: FileRef)
    ensures var dropped := Step(encode, ChooseInDialog(encode, s, f).state, Drop([g])).state;
            && dropped.file == Some(g)
            && ChooseInDialog(encode, dropped, f) == Transition(dropped, [])
  {
  }

  /** A drop that also blanks the input's value when it replaces the
      selection, as `clear` does, so the dialog's next choice is compared
      against nothing. Everything else is the drop as written. */
  function CorrectedDrop(s: State, files: seq<FileRef>): (r: Transition)
    ensures r.effects == OnDrop(s, files).effects
    ensures r.state.(inputValue := s.inputValue) == OnDrop(s, files).state
    ensures r.state.inputValue == if files == [] then s.inputValue else ""
  {
    var t := OnDrop(s, files);
    if files == [] then t else Transition(t.state.(inputValue := ""), t.effects)
  }

  /** With the corrected drop, a file chosen in the dialog, then replaced by
      a drop, can be chosen again: the host hears about it. */
  lemma RepickAfterCorrectedDropNotifies(encode: Encoder, s: State, f: FileRef, g: FileRef)
    ensures var dropped := CorrectedDrop(ChooseInDialog(encode, s, f).state, [g]).state;
            && dropped.file == Some(g)
            && ChooseInDialog(encode, dropped, f).state.file == Some(f)
            && ChooseInDialog(encode, dropped, f).effects == [Notify(Some(f))]
  {
  }
}

=== FILE: render.dfy ===
/** What the display components render from the state: the placeholder
    (`FileUploadContent`), the preview (`FileUploadPreview`) and the
    standalone clear button (`FileUploadClear`). */
module Render {
  import opened Options
  import opened Files
  import opened FileUpload
  import Traces

  /** The body of the preview: the data-URL image, or the file name. */
  datatype Body = Image(src: string) | FileName(name: string)

  /** JavaScript truthiness of a `string | null`: null and "" are false. */
  predicate Truthy(p: Option<string>) {
    p.Some? && p.value != ""
  }

  /** `FileUploadContent` returns null when a file is selected. */
  predicate ShowsPlaceholder(s: State) {
    s.file.None?
  }

  /** `FileUploadClear` returns null when no file is selected. */
  predicate ShowsClearControl(s: State) {
    s.file.Some?
  }

  /** `FileUploadPreview`: nothing without a file; with one, the preview
      image when `preview` is truthy, otherwise the file's name. */
  function PreviewBody(s: State): (r: Option<Body>)
    ensures r.Some? <==> !ShowsPlaceholder(s)
    ensures r.Some? <==> ShowsClearControl(s)
    ensures r.Some? ==> (r.value.Image? <==> Truthy(s.preview))
    ensures r.Some? && r.value.Image? ==> r.value.src == s.preview.value
    ensures r.Some? && r.value.FileName? ==> r.value.name == s.file.value.name
  {
    if s.file.None? then None
    else if Truthy(s.preview) then Some(Image(s.preview.value))
    else Some(FileName(s.file.value.name))
  }

  /** After either clear path the placeholder is back, the preview and the
      clear controls are gone, and the picker is not opened. */
  lemma ClearRestoresPlaceholder(encode: Encoder, s: State, e: Event)
    requires e.ClearCall? || e.ClearControlClick?
    ensures ShowsPlaceholder(Step(encode, s, e).state)
    ensures PreviewBody(Step(encode, s, e).state) == None
    ensures !ShowsClearControl(Step(encode, s, e).state)
    ensures OpenPicker !in Step(encode, s, e).effects
  {
  }

  /** Selecting a non-image shows its name, never an image. */
  lemma NonImageShowsName(encode: Encoder, s: State, f: FileRef)
    requires !IsImage(f)
    ensures PreviewBody(Step(encode, s, Select(Some(f))).state) == Some(FileName(f.name))
  {
  }

  /** A finished image read shows the image, provided its data URL is not
      empty (an empty string is falsy and falls back to the name). */
  lemma LoadedImageShown(encode: Encoder, s: State, img: FileRef)
    requires IsImage(img)
    ensures var after := Run(AsWritten(encode), s, [Select(Some(img)), ReadLoad(img)]).state;
            PreviewBody(after) ==
              if encode(img) != "" then Some(Image(encode(img))) else Some(FileName(img.name))
  {
    Traces.ImageReadShowsImage(encode, s, img);
  }

  /** The stale preview left by a read that finishes after `clear` stays
      invisible while nothing is selected: the placeholder is shown. */
  lemma StaleReadAfterClearHidden(encode: Encoder, s: State, img: FileRef)
    requires IsImage(img)
    ensures var after := Run(AsWritten(encode), s, [Select(Some(img)), ClearCall, ReadLoad(img)]).state;
            after.preview.Some? && ShowsPlaceholder(after) && PreviewBody(after) == None
  {
    Traces.StaleReadAfterClear(encode, s, img);
  }

  /** The visible consequence of the missing staleness check: a non-image is
      selected and the previous image's picture is rendered as its preview. */
  lemma StaleImageShownForNonImage(encode: Encoder, s: State, img: FileRef, doc: FileRef)
    requires IsImage(img) && !IsImage(doc) && encode(img) != ""
    ensures var after := Run(AsWritten(encode), s, [Select(Some(img)), Select(Some(doc)), ReadLoad(img)]).state;
            after.file == Some(doc) && PreviewBody(after) == Some(Image(encode(img)))
  {
    Traces.StaleReadAfterReselect(encode, s, img, doc);
  }
}

=== FILE: superseding.dfy ===
/** The component with the two fixes that tie the preview to the current
    selection, kept beside the model of the code as written so that the two
    can be compared:
    - every `handleFile` call drops the current preview at once, so an
      earlier file's picture never stands for a new selection while it is
      read;
    - a finished read only becomes the preview if the `File` object it was
      started for is still the selection (the read captures its target and
      compares on completion).
    Every other part of every handler is the one of the code as written. */
module Superseding {
  import opened Options
  import opened Files
  import FileUpload
  import Render
  import Traces

  type State = FileUpload.State
  type Transition = FileUpload.Transition
  type Event = FileUpload.Event

  function ResetPreview(t: Transition): Transition {
    FileUpload.Transition(t.state.(preview := None), t.effects)
  }

  /** `handleFile` with the preview reset on every selection. */
  function HandleFile(s: State, choice: Option<FileRef>): (r: Transition)
    ensures r.state.file == choice
    ensures r.effects == [FileUpload.Notify(choice)]
    ensures r.state.preview == None
    ensures r.state.dragging == s.dragging && r.state.inputValue == s.inputValue
    ensures SelectsImage(choice) ==> r.state.pending == s.pending + [choice.value]
    ensures !SelectsImage(choice) ==> r.state.pending == s.pending
  {
    ResetPreview(FileUpload.HandleFile(s, choice))
  }

  /** `onload` with the staleness check: the read always ends, but its data
      URL is applied only when the file object it read is still selected. */
  function OnReadLoad(encode: FileUpload.Encoder, s: State, f: FileRef): (r: Transition)
    ensures r.effects == []
    ensures r.state.preview ==
              if f in s.pending && s.file == Some(f) then Some(encode(f)) else s.preview
    ensures r.state.(preview := None) == FileUpload.OnReadLoad(encode, s, f).state.(preview := None)
  {
    if f in s.pending then
      var done := s.(pending := FileUpload.RemoveOne(s.pending, f));
      if s.file == Some(f) then FileUpload.Transition(done.(preview := Some(encode(f))), [])
      else FileUpload.Transition(done, [])
    else
      FileUpload.Transition(s, [])
  }

  /** One event of the corrected component: read completions go through the
      guarded `onload`; every handler that calls `handleFile` does so with
      the corrected one; everything else is as written. */
  function Step(encode: FileUpload.Encoder, s: State, e: Event): (r: Transition)
    ensures e.Select? ==> r == HandleFile(s, e.choice)
    ensures e.ReadLoad? ==> r == OnReadLoad(encode, s, e.target)
    ensures FileUpload.CallsHandleFile(e) ==>
              r.state.preview == None && r.state.file == FileUpload.HandedFile(e)
    ensures !e.ReadLoad? && !FileUpload.CallsHandleFile(e) ==> r == FileUpload.Step(encode, s, e)
  {
    match e
    case ReadLoad(f) => OnReadLoad(encode, s, f)
    case _ =>
      var t := FileUpload.Step(encode, s, e);
      if FileUpload.CallsHandleFile(e) then ResetPreview(t) else t
  }

  function Corrected(encode: FileUpload.Encoder): (step: FileUpload.StepFunction)
    ensures forall s, e :: step(s, e) == Step(encode, s, e)
  {
    (s, e) => Step(encode, s, e)
  }

  /** The property the fixes establish: a preview is always the data URL of
      the selected `File` object, and that file is an image. */
  ghost predicate PreviewOwned(encode: FileUpload.Encoder, s: State) {
    s.preview.Some? ==>
      s.file.Some? && IsImage(s.file.value) && s.preview.value == encode(s.file.value)
  }

  /** The inductive form: `PreviewOwned`, and only images are being read. */
  ghost predicate Owned(encode: FileUpload.Encoder, s: State) {
    && (forall g :: g in s.pending ==> IsImage(g))
    && PreviewOwned(encode, s)
  }

  lemma StepKeepsOwned(encode: FileUpload.Encoder, s: State, e: Event)
    requires Owned(encode, s)
    ensures Owned(encode, Step(encode, s, e).state)
  {
    match e
    case ReadLoad(f) =>
      Traces.RemovingKeepsImages(s.pending, f);
    case ReadError(f) =>
      Traces.RemovingKeepsImages(s.pending, f);
    case Select(choice) =>
    case ClearCall =>
    case ClearControlClick =>
    case PickerChange(files) =>
    case Drop(files) =>
    case DragOver =>
    case DragLeave =>
    case DropzoneClick =>
  }

  /** From mount on, whatever happens and in whatever order reads finish,
      the preview belongs to the selected image. */
  lemma {:induction false} RunKeepsPreviewOwned(encode: FileUpload.Encoder, s: State, trace: seq<Event>)
    requires Owned(encode, s)
    ensures Owned(encode, FileUpload.Run(Corrected(encode), s, trace).state)
    decreases |trace|
  {
    if trace != [] {
      StepKeepsOwned(encode, s, trace[0]);
      RunKeepsPreviewOwned(encode, Step(encode, s, trace[0]).state, trace[1..]);
    }
  }

  lemma InitialOwned(encode: FileUpload.Encoder)
    ensures Owned(encode, FileUpload.Initial)
  {
  }

  /** What the corrected preview renders: an image only for the selected
      image file, and then that file's own data URL. */
  lemma RenderedImageIsSelection(encode: FileUpload.Encoder, trace: seq<Event>)
    ensures var after := FileUpload.Run(Corrected(encode), FileUpload.Initial, trace).state;
            Render.PreviewBody(after).Some? && Render.PreviewBody(after).value.Image? ==>
              after.file.Some? && IsImage(after.file.value)
              && Render.PreviewBody(after).value.src == encode(after.file.value)
  {
    InitialOwned(encode);
    RunKeepsPreviewOwned(encode, FileUpload.Initial, trace);
  }

  lemma StepOnlyPreviewDiffers(encode: FileUpload.Encoder, written: State, fixed: State, e: Event)
    requires written.(preview := None) == fixed.(preview := None)
    ensures Step(encode, fixed, e).effects == FileUpload.Step(encode, written, e).effects
    ensures Step(encode, fixed, e).state.(preview := None)
         == FileUpload.Step(encode, written, e).state.(preview := None)
  {
    assert written.pending == fixed.pending && written.file == fixed.file;
  }

  /** The fixes change nothing but the preview: from states that differ at
      most in their preview, both versions emit the same effects and reach
      states that differ at most in their preview. */
  lemma {:induction false} OnlyPreviewDiffers(encode: FileUpload.Encoder, written: State, fixed: State, trace: seq<Event>)
    requires written.(preview := None) == fixed.(preview := None)
    ensures FileUpload.Run(Corrected(encode), fixed, trace).effects
         == FileUpload.Run(FileUpload.AsWritten(encode), written, trace).effects
    ensures FileUpload.Run(Corrected(encode), fixed, trace).state.(preview := None)
         == FileUpload.Run(FileUpload.AsWritten(encode), written, trace).state.(preview := None)
    decreases |trace|
  {
    if trace != [] {
      var a := FileUpload.Step(encode, written, trace[0]);
      var b := Step(encode, fixed, trace[0]);
      StepOnlyPreviewDiffers(encode, written, fixed, trace[0]);
      OnlyPreviewDiffers(encode, a.state, b.state, trace[1..]);
    }
  }

  /** The trace that leaves a preview next to an empty selection in the code
      as written ends with no preview here. */
  lemma StaleReadDiscarded(encode: FileUpload.Encoder, s: State, img: FileRef)
    requires IsImage(img)
    ensures var after := FileUpload.Run(Corrected(encode), s,
                           [FileUpload.Select(Some(img)), FileUpload.ClearCall, FileUpload.ReadLoad(img)]).state;
            after.file == None && after.preview == None
  {
    FileUpload.RunThree(Corrected(encode), s, FileUpload.Select(Some(img)), FileUpload.ClearCall, FileUpload.ReadLoad(img));
  }

  /** Two different `File` objects with the same name and type: the first
      one's late read is the preview in the code as written, and is
      discarded here. */
  lemma SameNamedStaleReadDiscarded(encode: FileUpload.Encoder, s: State, a: FileRef, b: FileRef)
    requires IsImage(a) && a.name == b.name && a.mimeType == b.mimeType && a.id != b.id
    ensures var trace := [FileUpload.Select(Some(a)), FileUpload.Select(Some(b)), FileUpload.ReadLoad(a)];
            && FileUpload.Run(FileUpload.AsWritten(encode), s, trace).state.preview == Some(encode(a))
            && FileUpload.Run(Corrected(encode), s, trace).state.file == Some(b)
            && FileUpload.Run(Corrected(encode), s, trace).state.preview == None
  {
    Traces.StaleReadAfterReselect(encode, s, a, b);
    FileUpload.RunThree(Corrected(encode), s, FileUpload.Select(Some(a)), FileUpload.Select(Some(b)), FileUpload.ReadLoad(a));
  }

  /** The guard keeps the legitimate result: an image whose read finishes
      while it is still selected is previewed. */
  lemma CurrentReadApplied(encode: FileUpload.Encoder, s: State, img: FileRef)
    requires IsImage(img)
    ensures FileUpload.Run(Corrected(encode), s,
              [FileUpload.Select(Some(img)), FileUpload.ReadLoad(img)]).state.preview == Some(encode(img))
  {
    FileUpload.RunTwo(Corrected(encode), s, FileUpload.Select(Some(img)), FileUpload.ReadLoad(img));
    assert img in HandleFile(s, Some(img)).state.pending;
  }
}

=== FILE: traces.dfy ===
/** Properties of the component as written: what each event may change,
    what it tells the host, which facts every reachable state keeps, and the
    traces on which the missing staleness check shows. */
module Traces {
  import opened Options
  import opened Files
  import opened FileUpload

  /** Each event tells the host at most once: exactly one `onChange` with
      the file handed to `handleFile` when the handler calls it; the only
      other effect in the component is the dropzone click opening the
      picker, and the clear controls never open it. */
  lemma StepEffects(encode: Encoder, s: State, e: Event)
    ensures Step(encode, s, e).effects ==
              if CallsHandleFile(e) then [Notify(HandedFile(e))]
              else if e.DropzoneClick? then [OpenPicker]
              else []
    ensures CallsHandleFile(e) ==> Step(encode, s, e).state.file == HandedFile(e)
    ensures !CallsHandleFile(e) ==> Step(encode, s, e).state.file == s.file
  {
  }

  /** The selection a host has been told about: the argument of the last
      `onChange` among `effects`, or `seed` if there is none. */
  function HostView(seed: Option<FileRef>, effects: seq<Effect>): Option<FileRef>
    decreases |effects|
  {
    if effects == [] then seed
    else HostView(if effects[0].Notify? then effects[0].selected else seed, effects[1..])
  }

  lemma {:induction false} HostViewAppend(seed: Option<FileRef>, a: seq<Effect>, b: seq<Effect>)
    ensures HostView(seed, a + b) == HostView(HostView(seed, a), b)
    decreases |a|
  {
    if a == [] {
      assert a + b == b;
    } else {
      assert (a + b)[1..] == a[1..] + b;
      HostViewAppend(if a[0].Notify? then a[0].selected else seed, a[1..], b);
    }
  }

  /** The host's `onChange` log always ends with the component's current
      `file`: after any sequence of events, the last value the host received
      (or the file it started from, if it received none) is the selection. */
  lemma {:induction false} HostSeesCurrentFile(encode: Encoder, s: State, trace: seq<Event>)
    ensures HostView(s.file, Run(AsWritten(encode), s, trace).effects)
         == Run(AsWritten(encode), s, trace).state.file
    decreases |trace|
  {
    if trace != [] {
      var first := Step(encode, s, trace[0]);
      StepEffects(encode, s, trace[0]);
      HostViewAppend(s.file, first.effects, Run(AsWritten(encode), first.state, trace[1..]).effects);
      HostSeesCurrentFile(encode, first.state, trace[1..]);
    }
  }

  /** A data URL produced by reading some image file. */
  ghost predicate IsImageData(encode: Encoder, p: string) {
    exists g: FileRef :: IsImage(g) && encode(g) == p
  }

  /** What every reachable state keeps: only images are being read, and a
      preview, if any, is the data URL of some image. */
  ghost predicate Valid(encode: Encoder, s: State) {
    && (forall g :: g in s.pending ==> IsImage(g))
    && (s.preview.Some? ==> IsImageData(encode, s.preview.value))
  }

  lemma InitialValid(encode: Encoder)
    ensures Valid(encode, Initial)
  {
  }

  lemma RemovingKeepsImages(inFlight: seq<FileRef>, f: FileRef)
    requires forall g :: g in inFlight ==> IsImage(g)
    ensures forall g :: g in RemoveOne(inFlight, f) ==> IsImage(g)
  {
    var r := RemoveOne(inFlight, f);
    forall g | g in r
      ensures IsImage(g)
    {
      assert g in multiset(r);
    }
  }

  lemma StepKeepsValid(encode: Encoder, s: State, e: Event)
    requires Valid(encode, s)
    ensures Valid(encode, Step(encode, s, e).state)
  {
    match e
    case ReadLoad(f) =>
      RemovingKeepsImages(s.pending, f);
      if f in s.pending {
        assert IsImage(f);
        assert IsImageData(encode, encode(f));
      }
    case ReadError(f) =>
      RemovingKeepsImages(s.pending, f);
    case Select(choice) =>
      assert Step(encode, s, e) == HandleFile(s, choice);
    case ClearCall =>
    case ClearControlClick =>
    case PickerChange(files) =>
      if files != [] {
        assert Step(encode, s, e) == HandleFile(s.(inputValue := InputValueFor(files)), Some(files[0]));
      }
    case Drop(files) =>
      if files != [] {
        assert Step(encode, s, e) == HandleFile(s.(dragging := false), Some(files[0]));
      }
    case DragOver =>
    case DragLeave =>
    case DropzoneClick =>
  }

  /** No sequence of events ever starts a read of a non-image, and no
      sequence ever shows a non-image's contents as the preview. */
  lemma {:induction false} RunKeepsValid(encode: Encoder, s: State, trace: seq<Event>)
    requires Valid(encode, s)
    ensures Valid(encode, Run(AsWritten(encode), s, trace).state)
    decreases |trace|
  {
    if trace != [] {
      StepKeepsValid(encode, s, trace[0]);
      RunKeepsValid(encode, Step(encode, s, trace[0]).state, trace[1..]);
    }
  }

  predicate DragOnly(trace: seq<Event>) {
    forall i | 0 <= i < |trace| :: trace[i].DragOver? || trace[i].DragLeave?
  }

  /** Drag gestures over the dropzone touch nothing but the highlight flag:
      no effect, the same file, preview, input value and reads, and the flag
      is set by the last gesture (over: on, leave: off). */
  lemma {:induction false} DragGesturesKeepSelection(encode: Encoder, s: State, trace: seq<Event>)
    requires DragOnly(trace)
    ensures Run(AsWritten(encode), s, trace).effects == []
    ensures Run(AsWritten(encode), s, trace).state ==
              s.(dragging := if trace == [] then s.dragging else trace[|trace| - 1].DragOver?)
    decreases |trace|
  {
    if trace != [] {
      var first := Step(encode, s, trace[0]);
      assert first == Transition(s.(dragging := trace[0].DragOver?), []) by {
        assert trace[0].DragOver? || trace[0].DragLeave?;
      }
      var next := first.state;
      assert DragOnly(trace[1..]) by {
        forall i | 0 <= i < |trace[1..]|
          ensures trace[1..][i].DragOver? || trace[1..][i].DragLeave?
        {
          assert trace[1..][i] == trace[i + 1];
        }
      }
      DragGesturesKeepSelection(encode, next, trace[1..]);
      var rest := Run(AsWritten(encode), next, trace[1..]);
      assert Run(AsWritten(encode), s, trace) == Transition(rest.state, first.effects + rest.effects);
      assert trace[1..] != [] ==> trace[1..][|trace[1..]| - 1] == trace[|trace| - 1];
    }
  }

  /** `clear` twice is `clear` once, apart from a second `onChange(null)`. */
  lemma ClearIdempotent(encode: Encoder, s: State)
    ensures Run(AsWritten(encode), s, [ClearCall, ClearCall]).state == Step(encode, s, ClearCall).state
    ensures Run(AsWritten(encode), s, [ClearCall, ClearCall]).effects == [Notify(None), Notify(None)]
  {
    RunTwo(AsWritten(encode), s, ClearCall, ClearCall);
  }

  /** A drop is a drag-leave followed by the input's `change` on the same
      payload, except that a drop leaves the input's remembered value alone:
      the two handlers share their selection logic. */
  lemma DropIsLeaveThenPick(encode: Encoder, s: State, files: seq<FileRef>)
    ensures var viaPicker := Run(AsWritten(encode), s, [DragLeave, PickerChange(files)]);
            Step(encode, s, Drop(files))
              == Transition(viaPicker.state.(inputValue := s.inputValue), viaPicker.effects)
  {
    RunTwo(AsWritten(encode), s, DragLeave, PickerChange(files));
    var left := OnDragLeave(s);
    assert Step(encode, s, DragLeave) == left;
    if files == [] {
      assert Step(encode, left.state, PickerChange(files)) == Transition(left.state.(inputValue := ""), []);
    } else {
      assert Step(encode, left.state, PickerChange(files))
          == HandleFile(left.state.(inputValue := InputValueFor(files)), Some(files[0]));
    }
  }

  /** Without interference, selecting an image and letting its read finish
      leaves the image's data URL as the preview. */
  lemma ImageReadShowsImage(encode: Encoder, s: State, img: FileRef)
    requires IsImage(img)
    ensures Run(AsWritten(encode), s, [Select(Some(img)), ReadLoad(img)]).state.file == Some(img)
    ensures Run(AsWritten(encode), s, [Select(Some(img)), ReadLoad(img)]).state.preview == Some(encode(img))
  {
    RunTwo(AsWritten(encode), s, Select(Some(img)), ReadLoad(img));
    assert img in HandleFile(s, Some(img)).state.pending;
  }

  /** The read is not cancelled by `clear`: a read of an image that finishes
      after the clear sets a preview although nothing is selected. */
  lemma StaleReadAfterClear(encode: Encoder, s: State, img: FileRef)
    requires IsImage(img)
    ensures Run(AsWritten(encode), s, [Select(Some(img)), ClearCall, ReadLoad(img)]).state.file == None
    ensures Run(AsWritten(encode), s, [Select(Some(img)), ClearCall, ReadLoad(img)]).state.preview == Some(encode(img))
  {
    RunThree(AsWritten(encode), s, Select(Some(img)), ClearCall, ReadLoad(img));
    var cleared := Clear(HandleFile(s, Some(img)).state);
    assert img in cleared.state.pending;
  }

  /** Selecting another file while an image is still being read: the late
      read puts the image's data URL next to the new selection. */
  lemma StaleReadAfterReselect(encode: Encoder, s: State, img: FileRef, other: FileRef)
    requires IsImage(img) && other != img
    ensures Run(AsWritten(encode), s, [Select(Some(img)), Select(Some(other)), ReadLoad(img)]).state.file == Some(other)
    ensures Run(AsWritten(encode), s, [Select(Some(img)), Select(Some(other)), ReadLoad(img)]).state.preview == Some(encode(img))
  {
    RunThree(AsWritten(encode), s, Select(Some(img)), Select(Some(other)), ReadLoad(img));
    var t1 := HandleFile(s, Some(img));
    var t2 := HandleFile(t1.state, Some(other));
    assert img in t1.state.pending;
    assert img in t2.state.pending;
  }

  /** Two images picked in quick succession whose reads finish in the
      opposite order: the second image is selected, the first one's data URL
      is the preview. */
  lemma ReadsFinishingOutOfOrder(encode: Encoder, s: State, a: FileRef, b: FileRef)
    requires IsImage(a) && IsImage(b)
    ensures Run(AsWritten(encode), s, [Select(Some(a)), Select(Some(b)), ReadLoad(b), ReadLoad(a)]).state.file == Some(b)
    ensures Run(AsWritten(encode), s, [Select(Some(a)), Select(Some(b)), ReadLoad(b), ReadLoad(a)]).state.preview == Some(encode(a))
  {
    RunFour(AsWritten(encode), s, Select(Some(a)), Select(Some(b)), ReadLoad(b), ReadLoad(a));
    var t1 := HandleFile(s, Some(a));
    var t2 := HandleFile(t1.state, Some(b));
    var t3 := OnReadLoad(encode, t2.state, b);
    assert t2.state.pending == s.pending + [a] + [b];
    assert a in t3.state.pending by {
      assert multiset(t3.state.pending) == multiset(t2.state.pending) - multiset{b};
      if a == b {
        assert multiset(t2.state.pending)[a] >= 2;
      } else {
        assert a in multiset(t2.state.pending);
      }
      assert a in multiset(t3.state.pending);
    }
  }

  /** Selecting a second image keeps the first image's preview until the
      second read loads; if that read fails, the old preview stays for good. */
  lemma OldPreviewOutlivesFailedRead(encode: Encoder, s: State, a: FileRef, b: FileRef)
    requires IsImage(a) && IsImage(b)
    ensures Run(AsWritten(encode), s, [Select(Some(a)), ReadLoad(a), Select(Some(b)), ReadError(b)]).state.file == Some(b)
    ensures Run(AsWritten(encode), s, [Select(Some(a)), ReadLoad(a), Select(Some(b)), ReadError(b)]).state.preview == Some(encode(a))
  {
    RunFour(AsWritten(encode), s, Select(Some(a)), ReadLoad(a), Select(Some(b)), ReadError(b));
    assert a in HandleFile(s, Some(a)).state.pending;
  }
}
